=== FILE: README.md ===
# SmartSim `Application` entity: CPU-pinning strings and entity bookkeeping

A Dafny model of the logic of the `Application` entity in
`smartsim/entity/model.py`. It covers two parts.

- **The CPU-pinning string builder `Application._create_pinning_string`.** It turns an
  optional pinning specification into the comma-separated CPU id list given to a
  launcher, or into "no pinning".
  - Python's runtime type tests become a closed datatype `Pinning.Elem`: an int, a
    non-iterable non-int value, or an iterable group of values.
  - The `sys.platform == "darwin"` test becomes a boolean parameter.
  - `warnings.warn` becomes a returned flag.
  - The raised `ValueError`/`TypeError` become a `Failure` value whose `Kind()` says
    which of the two it is.
- **The entity's bookkeeping.** This is the registry of incoming entities, the
  key-prefixing flag and the attached generator files. Each Python method is a
  transition on an immutable `Application.AppState`. A method that raises leaves the
  state as it was.

Modules:

| module | models |
|---|---|
| `Wrappers` | `Option` (Python `None`) and `Result` (a return value or a raised exception) |
| `Seqs` | the element set of a list, and duplicate-freedom |
| `LexOrder` | Python's `<` on `str`, and `sorted` over a set of strings |
| `Decimal` | `str()` of a non-negative `int`, and reading it back |
| `Delimited` | `",".join` and `str.split(",")` |
| `Pinning` | `_create_pinning_string` and its nested `_stringify_id` |
| `Application` | `register_incoming_entity`, key prefixing, `attach_generator_files` |

Behaviour of the code that a reader might not expect. The model follows the code in each case:

- **The order is string order, not numeric order.** Line 281 sorts the set of decimal
  *strings*, so `[10, 2, 9]` gives `"10,2,9"` (`Pinning.StringOrderExample`). The
  default list (line 276) is `range(cpus)` in numeric order. When every id renders to
  the same number of digits, the two orders agree (`Pinning.SameWidthIsNumeric`).
- **A non-iterable `pin_ids` fails before the platform test.** `tuple(pin_ids)`
  (line 255) runs before the darwin branch. So a non-iterable specification is a
  `TypeError` even on darwin.
- **Darwin does not validate.** On darwin nothing is validated: `[-1]` gives `None`
  with a warning, not an error.
- **`cpus <= 0` gives an empty string.** With `pin_ids = None` and `cpus <= 0` the
  result is `""`, because the range is empty.
- **A non-empty specification can flatten to nothing.** For example `[[]]` does. The
  result is then `""`, not `None`.
- **The first offending value decides the error.** Lines 279-280 build lazy iterators,
  and the set comprehension at line 281 pulls from them one id at a time. So each id
  is checked as soon as it is flattened, and the first bad value in flattened order
  decides the exception.
  `[-1, 1.5]` raises `ValueError`. `[1.5, -1]` raises `TypeError`. The same holds inside
  one group (`Pinning.GroupFirstBadDecides`).
- **A non-int id is a `TypeError`.** The docstring of `_stringify_id` (line 246) says a
  non-int raises `ValueError`, but line 252 raises `TypeError`.

## Model

| member | source | states |
|---|---|---|
| `Pinning.CreatePinningString` | smartsim/entity/model.py:235-281 | A non-iterable spec fails with a TypeError before the platform is examined. On darwin the result is always "no pinning", and the warning is raised exactly when the materialised spec is non-empty. Off darwin nothing is warned. An absent spec yields a list, while an explicitly empty one disables pinning. A non-empty spec succeeds exactly when it is valid, and every failure names an offending value it contains. |
| `Pinning.StringifyId` | smartsim/entity/model.py:245-252 | Succeeds exactly on a non-negative int. The result is canonical decimal that reads back as the id. A negative int gives a ValueError; the model records the id with it. Any other value gives a TypeError naming its type. |
| `Pinning.StringifyAll` | smartsim/entity/model.py:245-252 | A group succeeds exactly when every member is a non-negative int. Its tokens are then the members' renderings, in order. A failure names a negative member or the type of a non-int member. It is what `_stringify_id` raises on the first member it rejects, in order. |
| `Pinning.EntryTokens` | smartsim/entity/model.py:279-280 | One entry is accepted exactly when it is well shaped with non-negative ids. A scalar non-int entry fails as not iterable. Otherwise it contributes the renderings of its ids, in order. A group's failure is that of its first rejected member. |
| `Pinning.Tokens` | smartsim/entity/model.py:279-281 | The flattened spec is accepted exactly when it is valid. The tokens are then the renderings of the one-level-flattened ids, position by position. A failure always blames a value present in the spec. |
| `Pinning.TokensAppend` | smartsim/entity/model.py:279-281 | Evaluation is left to right: the tokens of a concatenation are those of the first part, then those of the second. The first part's failure takes precedence. |
| `Pinning.DefaultList` | smartsim/entity/model.py:276 | The default list is empty exactly when `cpus <= 0` and holds a comma exactly when `cpus > 1`. Its full content is stated by `Pinning.DefaultRange`. |
| `Pinning.DefaultRange` | smartsim/entity/model.py:275-276 | With no spec off darwin, the list has exactly `cpus` tokens. Token `i` is canonical and reads as `i`, so the order is numeric. It is the empty string when `cpus <= 0`. |
| `Pinning.ExplicitList` | smartsim/entity/model.py:277-281 | For a valid non-empty spec the tokens are strictly ascending in string order and pairwise distinct. Their set is exactly the decimal renderings of the flattened ids. The result is "" when the spec flattens to nothing. |
| `Pinning.OrderIndependent` | smartsim/entity/model.py:281 | Two valid specs with the same set of ids give the same list, whatever their order, repetition or grouping. |
| `Pinning.Idempotent` | smartsim/entity/model.py:281 | Reading the produced tokens back as ints and compiling them again yields the same list. |
| `Pinning.SameWidthIsNumeric` | smartsim/entity/model.py:281 | When all ids have the same number of digits, the tokens are also in ascending numeric order. |
| `Pinning.StringOrderExample` | smartsim/entity/model.py:281 | `[10, 2, 9]` yields `"10,2,9"`. |
| `Pinning.DocumentedExample` | smartsim/entity/model.py:239-242 | `[0, 2, 5]` yields `"0,2,5"`, the example the docstring gives. |
| `Pinning.GroupFirstBadDecides` | smartsim/entity/model.py:279-281 | Inside one group the first bad member decides the exception: `[[1.5, -1]]` raises a TypeError and `[[-1, 1.5]]` a ValueError. |
| `Pinning.NegativeIsValueError` | smartsim/entity/model.py:247-249 | A well-shaped spec containing a negative id fails with a ValueError. The model records with it a negative id from the spec. |
| `Pinning.MisshapenIsTypeError` | smartsim/entity/model.py:252 | A spec with no negative id that is not well shaped fails with a TypeError. Examples are a float entry, a string member, or a group nested twice. |
| `LexOrder.InsertUnique` | smartsim/entity/model.py:281 | Inserting into a strictly ascending list keeps it strictly ascending. The element set gains exactly the inserted value. |
| `LexOrder.SortUnique` | smartsim/entity/model.py:281 | The result is strictly ascending, and its element set is exactly that of the input. This is what `sorted({...})` returns. |
| `LexOrder.SortedUnique` | smartsim/entity/model.py:281 | Two strictly ascending lists with the same elements are equal. So the sorted set is unique. |
| `LexOrder.LessTransitive` | smartsim/entity/model.py:281 | Python's string order is transitive. |
| `LexOrder.LessTotal` | smartsim/entity/model.py:281 | Any two different strings are ordered one way or the other. |
| `Decimal.ParseDec` | smartsim/entity/model.py:250 | Reading back `str(n)` gives `n`. |
| `Decimal.DecParse` | smartsim/entity/model.py:250 | Every canonical digit string is `str` of the number it reads as. |
| `Decimal.DecInjective` | smartsim/entity/model.py:250 | Distinct ids render to distinct strings, so deduplicating strings deduplicates ids. |
| `Decimal.LessSameWidth` | smartsim/entity/model.py:281 | On renderings of equal width, string order coincides with numeric order. |
| `Decimal.LessAcrossWidths` | smartsim/entity/model.py:281 | `"10"` sorts before `"9"` although 9 < 10. |
| `Delimited.SplitJoin` | smartsim/entity/model.py:276 | Splitting a comma-join of a non-empty list of comma-free tokens gives the tokens back. The empty list is excluded because `",".join([])` splits to `[""]`. |
| `Delimited.JoinSplit` | smartsim/entity/model.py:276-281 | Joining the pieces of any split restores the string. So the statements about the pieces of the result (`Pinning.DefaultRange`, `Pinning.ExplicitList`, `Pinning.SameWidthIsNumeric`, `Pinning.Idempotent`) fix the string itself. |
| `Application.RegisterIncoming` | smartsim/entity/model.py:138-156 | The call fails with EntityExists exactly when the name is already registered. Otherwise it appends exactly that name at the end and changes nothing else. Unique names stay unique. |
| `Application.EnableKeyPrefixing` | smartsim/entity/model.py:158-160 | Afterwards the query is true. The registry and files are unchanged. |
| `Application.DisableKeyPrefixing` | smartsim/entity/model.py:162-166 | Afterwards the query is false. The registry and files are unchanged. |
| `Application.QueryUntouched` | smartsim/entity/model.py:168-173 | The query answers as it did before any run of operations that contains no enable or disable. Registering and attaching, whether or not they raise, leave the flag alone. |
| `Application.QueryLastToggle` | smartsim/entity/model.py:158-173 | After any run of operations, the query answers true exactly when the last enable-or-disable in the run was an enable. |
| `Application.Basename` | smartsim/entity/model.py:212 | The result is the longest slash-free suffix of the path: it contains no '/' and is a suffix. Either it is the whole path or it is preceded by '/'. |
| `Application.BasenameOfJoin` | smartsim/entity/model.py:207-212 | The basename of `dir/name` is `name`, whatever the directory. |
| `Application.AttachGeneratorFiles` | smartsim/entity/model.py:203-219 | The call fails exactly when some path in any of the three lists (absent lists treated as empty) has basename `smartsim_params.txt`. Otherwise the attached files become exactly the new triple, and the registry and flag are kept. |
| `Application.AttachOverwrites` | smartsim/entity/model.py:183-186 | A second attachment replaces the first rather than merging with it. |
| `Application.RunPreserves` | smartsim/entity/model.py:148-156 | From a state whose names are unique and whose attached files avoid the parameter file, any sequence of operations keeps both properties, whether or not each one raises. The registry only grows at its end. |
| `Application.FreshInv` | smartsim/entity/model.py:82-84 | A new entity meets the invariant of `Application.RunPreserves` exactly when the files passed to the constructor avoid the parameter file. The constructor itself does not check them. |
| `Application.FreshMayHoldParamsFile` | smartsim/entity/model.py:82 | A new entity given `conf/smartsim_params.txt` to copy holds the parameter file, so it does not meet the invariant of `Application.RunPreserves`. |
| `Application.FilesUntilAttach` | smartsim/entity/model.py:138-219 | A run in which no attachment succeeds leaves the attached files as they were. Registering, toggling prefixing and refused attachments do not touch them. |
| `Application.AttachClears` | smartsim/entity/model.py:203-219 | After a successful attachment no attached path names the parameter file. With `Application.FilesUntilAttach` this means a new entity holds the parameter file until its first successful attachment. |
| `Application.RunRegisters` | smartsim/entity/model.py:148-156 | After any sequence of operations, the registered names are the original ones plus every name passed to a registration. |

## Left out

- The constructor (model.py:61-85) is not modelled. It uses names that are not defined in the file (`path`, `params`, `_build_exe_args`). `Application.Fresh` gives only the empty registry and cleared flag it sets, with the given files copied unchecked.
- `exe_args`, its setter and `add_exe_args` are not modelled. They depend on `_build_exe_args`, which is not part of this model.
- `attached_files_table`, `print_attached_files` and `__str__` are not modelled. They print or render through `__str__` methods of classes that are not part of this model.
- `expand_exe_path`, `SmartSimEntity`, `FSModel`/`FSScript` and the internals of `EntityFiles` are not part of this model. `EntityFiles` is an opaque triple of path lists.
- `sys.platform`, `warnings.warn` and the logger are not modelled. They become a `darwin` parameter and a returned `warned` flag.
- Exception message texts are not modelled. Only the kind (ValueError/TypeError/EntityExistsError) is kept, with the registered name or the offending type name the messages include.
- `Pinning.StringifyId`: the model records the negative id in `NegativeId`, but the source's message at model.py:249 does not contain it. The id, and so the "first negative id" of `Pinning.FirstFailure`, is a detail the model adds.
- Python `bool` ids are not modelled separately. In Python they pass `isinstance(_, int)` and render as `"True"`/`"False"`. Ids are modelled as mathematical integers.
- Iteration with side effects or that does not terminate is not modelled. An iterable is the finite sequence `tuple()` would materialise. A top-level `str` entry is the group of its one-character strings.
- Accessor attributes are not modelled separately. The methods read `self.incoming_entities` and write `self.files`, but the constructor sets `_incoming_entities` and `_files`. The TODOs at model.py:98-103 say the properties connecting them are not written yet. The model uses one field for each pair.
- Python 3.11 and later refuse `str()` of an int with more than 4300 digits (a `ValueError` under the default limit). Ids are assumed to stay below that limit.
- `Application.RegisterIncoming`: it tracks incoming entities by name only. The source stores the entity objects but compares only their names.
- `Application.Basename` models `posixpath.basename`. On Windows `os.path` is `ntpath`, which also splits on `\` and drive prefixes; that is not modelled.

=== FILE: application.dfy ===
/**
 * The bookkeeping state of an `Application` entity: the registry of incoming
 * entities, the key-prefixing flag, and the attached generator files. Each
 * operation is a state transition; one that raises leaves the state as it was.
 */
module Application {
  import opened Wrappers
  import opened Seqs

  /** `EntityFiles(to_configure, to_copy, to_symlink)`, treated as an opaque triple of path lists. */
  datatype FileSet = FileSet(toConfigure: seq<string>, toCopy: seq<string>, toSymlink: seq<string>)

  /** The part of an `Application` these operations read and write; incoming entities by name. */
  datatype AppState = AppState(incoming: seq<string>, prefixing: bool, files: Option<FileSet>)

  datatype AppError =
    | EntityExists(name: string)  // EntityExistsError
    | ParamsFileCollision         // ValueError: the name is reserved for the generator

  /** The parameter file the generator writes into every entity directory. */
  const ParamsFile: string := "smartsim_params.txt"

  /**
   * The incoming registry and the flag as the constructor leaves them; the
   * constructor copies `files` without the parameter-file check.
   */
  function Fresh(files: Option<FileSet>): AppState {
    AppState([], false, files)
  }

  // ---------------------------------------------------------------------------
  // Incoming entities
  // ---------------------------------------------------------------------------

  /** `register_incoming_entity`: rejects a name already registered, otherwise appends it. */
  function RegisterIncoming(st: AppState, name: string): (r: Result<AppState, AppError>)
    ensures r.Failure? <==> name in st.incoming
    ensures r.Failure? ==> r.error == EntityExists(name)
    ensures r.Success? ==> r.value.incoming == st.incoming + [name]
    ensures r.Success? ==> r.value.prefixing == st.prefixing && r.value.files == st.files
    ensures r.Success? && Distinct(st.incoming) ==> Distinct(r.value.incoming)
  {
    if name in st.incoming then Failure(EntityExists(name))
    else Success(st.(incoming := st.incoming + [name]))
  }

  // ---------------------------------------------------------------------------
  // Key prefixing
  // ---------------------------------------------------------------------------

  /** `query_key_prefixing`. */
  function QueryKeyPrefixing(st: AppState): bool {
    st.prefixing
  }

  /** `enable_key_prefixing`. */
  function EnableKeyPrefixing(st: AppState): (r: AppState)
    ensures QueryKeyPrefixing(r)
    ensures r.incoming == st.incoming && r.files == st.files
  {
    st.(prefixing := true)
  }

  /** `disable_key_prefixing`. */
  function DisableKeyPrefixing(st: AppState): (r: AppState)
    ensures !QueryKeyPrefixing(r)
    ensures r.incoming == st.incoming && r.files == st.files
  {
    st.(prefixing := false)
  }

  // ---------------------------------------------------------------------------
  // Generator files
  // ---------------------------------------------------------------------------

  /** `os.path.basename` on POSIX: everything after the last '/'. */
  function Basename(path: string): (b: string)
    ensures '/' !in b
    ensures |b| <= |path| && path[|path| - |b|..] == b
    ensures |b| < |path| ==> path[|path| - |b| - 1] == '/'
    decreases |path|
  {
    if |path| == 0 || path[|path| - 1] == '/' then ""
    else Basename(path[..|path| - 1]) + [path[|path| - 1]]
  }

  /** The basename of a path is its last component whatever the directory part. */
  lemma {:induction false} BasenameOfJoin(dir: string, name: string)
    requires '/' !in name
    ensures Basename(dir + "/" + name) == name
    decreases |name|
  {
    var p := dir + "/" + name;
    if |name| > 0 {
      var init := name[..|name| - 1];
      assert p[..|p| - 1] == dir + "/" + init;
      assert p[|p| - 1] == name[|name| - 1];
      BasenameOfJoin(dir, init);
      assert name == init + [name[|name| - 1]];
    }
  }

  /** Some path in the list names the generator's parameter file. */
  predicate Collides(paths: seq<string>) {
    exists i :: 0 <= i < |paths| && Basename(paths[i]) == ParamsFile
  }

  lemma CollidesMeansSomePath(paths: seq<string>)
    ensures Collides(paths) <==> exists p :: p in paths && Basename(p) == ParamsFile
  {
    if exists p :: p in paths && Basename(p) == ParamsFile {
      var p :| p in paths && Basename(p) == ParamsFile;
      var i :| 0 <= i < |paths| && paths[i] == p;
    }
  }

  /**
   * `attach_generator_files`: absent lists count as empty; any path whose
   * basename is the parameter file is refused; otherwise the attached files
   * are replaced by the new triple.
   */
  function AttachGeneratorFiles(st: AppState, toCopy: Option<seq<string>>, toSymlink: Option<seq<string>>,
                                toConfigure: Option<seq<string>>): (r: Result<AppState, AppError>)
    ensures r.Failure? <==> exists p :: (p in toCopy.GetOr([]) || p in toSymlink.GetOr([]) || p in toConfigure.GetOr([]))
                                        && Basename(p) == ParamsFile
    ensures r.Failure? ==> r.error == ParamsFileCollision
    ensures r.Success? ==> r.value.files == Some(FileSet(toConfigure.GetOr([]), toCopy.GetOr([]), toSymlink.GetOr([])))
    ensures r.Success? ==> r.value.incoming == st.incoming && r.value.prefixing == st.prefixing
  {
    var copy, symlink, configure := toCopy.GetOr([]), toSymlink.GetOr([]), toConfigure.GetOr([]);
    CollidesMeansSomePath(copy);
    CollidesMeansSomePath(symlink);
    CollidesMeansSomePath(configure);
    if Collides(copy) || Collides(symlink) || Collides(configure) then Failure(ParamsFileCollision)
    else Success(st.(files := Some(FileSet(configure, copy, symlink))))
  }

  /** Attaching replaces rather than merges: only the last successful attachment survives. */
  lemma AttachOverwrites(st: AppState, c1: Option<seq<string>>, s1: Option<seq<string>>, f1: Option<seq<string>>,
                         c2: Option<seq<string>>, s2: Option<seq<string>>, f2: Option<seq<string>>)
    requires AttachGeneratorFiles(st, c1, s1, f1).Success?
    ensures AttachGeneratorFiles(AttachGeneratorFiles(st, c1, s1, f1).value, c2, s2, f2)
         == AttachGeneratorFiles(st, c2, s2, f2)
  {
  }

  // ---------------------------------------------------------------------------
  // Sequences of operations
  // ---------------------------------------------------------------------------

  datatype Op =
    | Register(name: string)
    | EnablePrefixing
    | DisablePrefixing
    | Attach(toCopy: Option<seq<string>>, toSymlink: Option<seq<string>>, toConfigure: Option<seq<string>>)

  function Step(st: AppState, op: Op): Result<AppState, AppError> {
    match op
    case Register(name) => RegisterIncoming(st, name)
    case EnablePrefixing => Success(EnableKeyPrefixing(st))
    case DisablePrefixing => Success(DisableKeyPrefixing(st))
    case Attach(c, s, f) => AttachGeneratorFiles(st, c, s, f)
  }

  /** Runs the operations in order; a caller that catches an exception keeps the state unchanged. */
  function Run(st: AppState, ops: seq<Op>): AppState
    decreases |ops|
  {
    if |ops| == 0 then st
    else
      var r := Step(st, ops[0]);
      Run(if r.Success? then r.value else st, ops[1..])
  }

  /** No attached path names the parameter file. */
  ghost predicate NoParamsFile(files: Option<FileSet>) {
    files.Some? ==> !Collides(files.value.toConfigure) && !Collides(files.value.toCopy) && !Collides(files.value.toSymlink)
  }

  ghost predicate Inv(st: AppState) {
    Distinct(st.incoming) && NoParamsFile(st.files)
  }

  /** A new entity satisfies the invariant when the files it is given avoid the parameter file. */
  lemma FreshInv(files: Option<FileSet>)
    ensures Inv(Fresh(files)) <==> NoParamsFile(files)
  {
  }

  /** The constructor does not check its files, so a new entity can hold the parameter file. */
  lemma FreshMayHoldParamsFile()
    ensures !Inv(Fresh(Some(FileSet([], ["conf/" + ParamsFile], []))))
  {
    BasenameOfJoin("conf", ParamsFile);
    assert Basename(["conf/" + ParamsFile][0]) == ParamsFile;
  }

  /** A successful attachment leaves no attached path naming the parameter file. */
  lemma AttachClears(st: AppState, toCopy: Option<seq<string>>, toSymlink: Option<seq<string>>,
                     toConfigure: Option<seq<string>>)
    requires AttachGeneratorFiles(st, toCopy, toSymlink, toConfigure).Success?
    ensures NoParamsFile(AttachGeneratorFiles(st, toCopy, toSymlink, toConfigure).value.files)
  {
  }

  /** Until an attachment succeeds, the attached files are those the run started with. */
  lemma {:induction false} FilesUntilAttach(st: AppState, ops: seq<Op>)
    requires forall j :: 0 <= j < |ops| && ops[j].Attach? ==> Step(st, ops[j]).Failure?
    ensures Run(st, ops).files == st.files
    decreases |ops|
  {
    if |ops| > 0 {
      var r := Step(st, ops[0]);
      var next := if r.Success? then r.value else st;
      assert next.files == st.files;
      forall j | 0 <= j < |ops[1..]| && ops[1..][j].Attach? ensures Step(next, ops[1..][j]).Failure? {
        assert ops[1..][j] == ops[j + 1];
        assert Step(st, ops[j + 1]).Failure?;
      }
      FilesUntilAttach(next, ops[1..]);
    }
  }

  /** Enabling or disabling prefixing; the other operations leave the flag alone. */
  predicate Toggles(op: Op) {
    op.EnablePrefixing? || op.DisablePrefixing?
  }

  /** Without an enable or disable among the operations, the query answers as before. */
  lemma {:induction false} QueryUntouched(st: AppState, ops: seq<Op>)
    requires forall j :: 0 <= j < |ops| ==> !Toggles(ops[j])
    ensures QueryKeyPrefixing(Run(st, ops)) == QueryKeyPrefixing(st)
    decreases |ops|
  {
    if |ops| > 0 {
      var r := Step(st, ops[0]);
      var next := if r.Success? then r.value else st;
      assert next.prefixing == st.prefixing;
      QueryUntouched(next, ops[1..]);
    }
  }

  /** The query answers true exactly when the last enable-or-disable was an enable. */
  lemma {:induction false} QueryLastToggle(st: AppState, ops: seq<Op>, i: nat)
    requires i < |ops| && Toggles(ops[i])
    requires forall j :: i < j < |ops| ==> !Toggles(ops[j])
    ensures QueryKeyPrefixing(Run(st, ops)) <==> ops[i].EnablePrefixing?
    decreases |ops|
  {
    var r := Step(st, ops[0]);
    var next := if r.Success? then r.value else st;
    if i == 0 {
      assert next.prefixing <==> ops[0].EnablePrefixing?;
      QueryUntouched(next, ops[1..]);
    } else {
      assert ops[1..][i - 1] == ops[i];
      QueryLastToggle(next, ops[1..], i - 1);
    }
  }

  /**
   * Whatever operations run, registered names stay unique, the registry only
   * grows at its end, and the attached files never include the parameter file.
   */
  lemma {:induction false} RunPreserves(st: AppState, ops: seq<Op>)
    requires Inv(st)
    ensures Inv(Run(st, ops))
    ensures |st.incoming| <= |Run(st, ops).incoming|
    ensures Run(st, ops).incoming[..|st.incoming|] == st.incoming
    decreases |ops|
  {
    if |ops| > 0 {
      var r := Step(st, ops[0]);
      var next := if r.Success? then r.value else st;
      assert Inv(next) && next.incoming[..|st.incoming|] == st.incoming;
      RunPreserves(next, ops[1..]);
      var fin := Run(next, ops[1..]);
      assert fin.incoming[..|st.incoming|] == fin.incoming[..|next.incoming|][..|st.incoming|];
    }
  }

  /** The names registered after a run are the original ones plus the registered names of the ops. */
  lemma {:induction false} RunRegisters(st: AppState, ops: seq<Op>)
    ensures Elems(Run(st, ops).incoming) == Elems(st.incoming) + (set i | 0 <= i < |ops| && ops[i].Register? :: ops[i].name)
    decreases |ops|
  {
    if |ops| > 0 {
      var r := Step(st, ops[0]);
      var next := if r.Success? then r.value else st;
      RunRegisters(next, ops[1..]);
      var later := set i | 0 <= i < |ops[1..]| && ops[1..][i].Register? :: ops[1..][i].name;
      var all := set i | 0 <= i < |ops| && ops[i].Register? :: ops[i].name;
      assert all == later + (if ops[0].Register? then {ops[0].name} else {}) by {
        forall n | n in all ensures n in later + (if ops[0].Register? then {ops[0].name} else {}) {
          var i :| 0 <= i < |ops| && ops[i].Register? && ops[i].name == n;
          if i > 0 {
            assert ops[1..][i - 1] == ops[i];
          }
        }
        forall n | n in later ensures n in all {
          var i :| 0 <= i < |ops[1..]| && ops[1..][i].Register? && ops[1..][i].name == n;
          assert ops[i + 1] == ops[1..][i];
        }
      }
      if ops[0].Register? {
        if r.Success? {
          assert Elems(next.incoming) == Elems(st.incoming) + {ops[0].name};
        } else {
          assert ops[0].name in Elems(st.incoming);
        }
      }
    }
  }
}

=== FILE: decimal.dfy ===
/**
 * Python's `str()` of a non-negative `int` (its canonical decimal rendering)
 * and the inverse reading of a digit string back into a number.
 */
module Decimal {
  import LexOrder
  import opened Seqs

  predicate IsDigit(c: char) {
    '0' <= c <= '9'
  }

  predicate AllDigits(s: string) {
    forall i :: 0 <= i < |s| ==> IsDigit(s[i])
  }

  /** What `str(n)` produces for `n >= 0`: digits only, no leading zero except "0" itself. */
  predicate Canonical(s: string) {
    |s| > 0 && AllDigits(s) && (s[0] == '0' ==> |s| == 1)
  }

  function DigitChar(d: nat): (c: char)
    requires d < 10
    ensures IsDigit(c)
  {
    ('0' as int + d) as char
  }

  function DigitValue(c: char): (d: nat)
    requires IsDigit(c)
    ensures d < 10
  {
    c as int - '0' as int
  }

  /** `str(n)` for a non-negative integer `n`. */
  function Dec(n: nat): (s: string)
    ensures Canonical(s)
    ensures s[0] == '0' <==> n == 0
    ensures |s| == 1 <==> n < 10
    decreases n
  {
    if n < 10 then [DigitChar(n)] else Dec(n / 10) + [DigitChar(n % 10)]
  }

  /** Python's `str()` of any int. */
  function Str(n: int): (s: string)
    ensures n >= 0 ==> s == Dec(n)
  {
    if n < 0 then "-" + Dec(-n) else Dec(n)
  }

  /** `[str(n) for n in ids]`. */
  function Render(ids: seq<int>): (r: seq<string>)
    ensures |r| == |ids|
  {
    if |ids| == 0 then [] else [Str(ids[0])] + Render(ids[1..])
  }

  lemma {:induction false} RenderAppend(a: seq<int>, b: seq<int>)
    ensures Render(a + b) == Render(a) + Render(b)
    decreases |a|
  {
    if |a| == 0 {
      assert a + b == b;
    } else {
      assert (a + b)[0] == a[0] && (a + b)[1..] == a[1..] + b;
      RenderAppend(a[1..], b);
    }
  }

  lemma {:induction false} RenderIndex(ids: seq<int>)
    ensures forall i :: 0 <= i < |ids| ==> Render(ids)[i] == Str(ids[i])
    decreases |ids|
  {
    if |ids| > 0 {
      RenderIndex(ids[1..]);
    }
  }

  lemma {:induction false} RenderElems(ids: seq<int>)
    ensures Elems(Render(ids)) == set n | n in ids :: Str(n)
    decreases |ids|
  {
    if |ids| > 0 {
      RenderElems(ids[1..]);
      assert ids == [ids[0]] + ids[1..];
      assert Elems(Render(ids)) == {Str(ids[0])} + Elems(Render(ids[1..]));
    }
  }

  /** Reads a string of decimal digits as a number (the empty string reads as 0). */
  function Parse(s: string): nat
    requires AllDigits(s)
    decreases |s|
  {
    if |s| == 0 then 0 else Parse(s[..|s| - 1]) * 10 + DigitValue(s[|s| - 1])
  }

  /** Reading back a rendering gives the number rendered. */
  lemma {:induction false} ParseDec(n: nat)
    ensures Parse(Dec(n)) == n
    decreases n
  {
    if n >= 10 {
      var s := Dec(n);
      assert s[..|s| - 1] == Dec(n / 10);
      ParseDec(n / 10);
    }
  }

  /** A digit string with a non-zero first digit reads as a positive number. */
  lemma {:induction false} ParsePositive(s: string)
    requires |s| > 0 && AllDigits(s) && s[0] != '0'
    ensures Parse(s) > 0
    decreases |s|
  {
    if |s| > 1 {
      ParsePositive(s[..|s| - 1]);
    }
  }

  /** Every canonical digit string is the rendering of the number it reads as. */
  lemma {:induction false} DecParse(s: string)
    requires Canonical(s)
    ensures Dec(Parse(s)) == s
    decreases |s|
  {
    if |s| > 1 {
      var p := s[..|s| - 1];
      assert Canonical(p);
      ParsePositive(p);
      DecParse(p);
      var n := Parse(s);
      assert n / 10 == Parse(p) && n % 10 == DigitValue(s[|s| - 1]);
      assert s == p + [s[|s| - 1]];
    }
  }

  /** Distinct numbers have distinct renderings. */
  lemma DecInjective(m: nat, n: nat)
    requires Dec(m) == Dec(n)
    ensures m == n
  {
    ParseDec(m);
    ParseDec(n);
  }

  /**
   * Python's string order agrees with numeric order on renderings of the same
   * width; across widths it does not (see `LessAcrossWidths`).
   */
  lemma {:induction false} LessSameWidth(m: nat, n: nat)
    requires |Dec(m)| == |Dec(n)|
    ensures LexOrder.Less(Dec(m), Dec(n)) <==> m < n
    decreases n
  {
    if m < 10 {
      assert n < 10;
      LexOrder.LessAppend([], [], DigitChar(m), DigitChar(n));
      assert [] + [DigitChar(m)] == Dec(m) && [] + [DigitChar(n)] == Dec(n);
    } else {
      assert n >= 10;
      LessSameWidth(m / 10, n / 10);
      LexOrder.LessAppend(Dec(m / 10), Dec(n / 10), DigitChar(m % 10), DigitChar(n % 10));
      DecInjectiveIff(m / 10, n / 10);
    }
  }

  lemma DecInjectiveIff(m: nat, n: nat)
    ensures Dec(m) == Dec(n) <==> m == n
  {
    if Dec(m) == Dec(n) {
      DecInjective(m, n);
    }
  }

  /** "10" sorts before "9" as a string although 10 > 9. */
  lemma LessAcrossWidths()
    ensures LexOrder.Less(Dec(10), Dec(9)) && 9 < 10
  {
    assert Dec(10) == "10" && Dec(9) == "9";
  }
}

=== FILE: delimited.dfy ===
/** Python's `",".join(xs)`, and `s.split(",")` as the reading that undoes it. */
module Delimited {

  const Sep: char := ','

  /** `",".join(xs)`. */
  function Join(xs: seq<string>): string {
    if |xs| == 0 then ""
    else if |xs| == 1 then xs[0]
    else xs[0] + [Sep] + Join(xs[1..])
  }

  /** `s.split(",")`: the pieces between separators, always at least one. */
  function Split(s: string): (r: seq<string>)
    ensures |r| >= 1
    decreases |s|
  {
    if |s| == 0 then [""]
    else if s[0] == Sep then [""] + Split(s[1..])
    else
      var rest := Split(s[1..]);
      [[s[0]] + rest[0]] + rest[1..]
  }

  /** Joining the pieces of a split restores the string, so the pieces determine it. */
  lemma {:induction false} JoinSplit(s: string)
    ensures Join(Split(s)) == s
    decreases |s|
  {
    if |s| > 0 {
      var rest := Split(s[1..]);
      JoinSplit(s[1..]);
      if s[0] == Sep {
        assert ([""] + rest)[1..] == rest;
      } else {
        var r := [[s[0]] + rest[0]] + rest[1..];
        if |rest| > 1 {
          assert r[1..] == rest[1..];
          assert Join(rest) == rest[0] + [Sep] + Join(rest[1..]);
        }
        assert s == [s[0]] + s[1..];
      }
    }
  }

  lemma {:induction false} SplitNoSep(a: string)
    requires Sep !in a
    ensures Split(a) == [a]
    decreases |a|
  {
    if |a| > 0 {
      SplitNoSep(a[1..]);
      assert a == [a[0]] + a[1..];
    }
  }

  lemma {:induction false} SplitCons(a: string, b: string)
    requires Sep !in a
    ensures Split(a + [Sep] + b) == [a] + Split(b)
    decreases |a|
  {
    var s := a + [Sep] + b;
    if |a| == 0 {
      assert s[1..] == b;
    } else {
      assert s[1..] == a[1..] + [Sep] + b;
      SplitCons(a[1..], b);
      assert a == [a[0]] + a[1..];
    }
  }

  /** Splitting a join of separator-free pieces gives the pieces back. */
  lemma {:induction false} SplitJoin(xs: seq<string>)
    requires |xs| > 0
    requires forall i :: 0 <= i < |xs| ==> Sep !in xs[i]
    ensures Split(Join(xs)) == xs
    decreases |xs|
  {
    if |xs| == 1 {
      SplitNoSep(xs[0]);
    } else {
      SplitJoin(xs[1..]);
      SplitCons(xs[0], Join(xs[1..]));
      assert xs == [xs[0]] + xs[1..];
    }
  }
}

=== FILE: lex_order.dfy ===
/**
 * Python's ordering of `str` values: code points compared left to right,
 * a proper prefix sorting first. `sorted` over a set of strings yields the
 * unique strictly ascending sequence of its members; the module builds that
 * sequence by insertion and proves it unique.
 */
module LexOrder {
  import opened Seqs

  /** `a < b` on Python strings. */
  predicate Less(a: string, b: string)
    decreases |a|
  {
    if |a| == 0 then |b| > 0
    else if |b| == 0 then false
    else if a[0] != b[0] then a[0] < b[0]
    else Less(a[1..], b[1..])
  }

  lemma {:induction false} LessIrreflexive(a: string)
    ensures !Less(a, a)
    decreases |a|
  {
    if |a| > 0 {
      LessIrreflexive(a[1..]);
    }
  }

  lemma {:induction false} LessAsymmetric(a: string, b: string)
    requires Less(a, b)
    ensures !Less(b, a)
    decreases |a|
  {
    if |a| > 0 && |b| > 0 && a[0] == b[0] {
      LessAsymmetric(a[1..], b[1..]);
    }
  }

  lemma {:induction false} LessTransitive(a: string, b: string, c: string)
    requires Less(a, b) && Less(b, c)
    ensures Less(a, c)
    decreases |a|
  {
    if |a| > 0 && a[0] == b[0] && b[0] == c[0] {
      LessTransitive(a[1..], b[1..], c[1..]);
    }
  }

  lemma {:induction false} LessTotal(a: string, b: string)
    ensures a == b || Less(a, b) || Less(b, a)
    decreases |a|
  {
    if |a| > 0 && |b| > 0 && a[0] == b[0] {
      LessTotal(a[1..], b[1..]);
      if a[1..] == b[1..] {
        assert a == [a[0]] + a[1..] && b == [b[0]] + b[1..];
      }
    }
  }

  /** On strings of equal length, appending one character extends the order lexicographically. */
  lemma {:induction false} LessAppend(a: string, b: string, x: char, y: char)
    requires |a| == |b|
    ensures Less(a + [x], b + [y]) <==> Less(a, b) || (a == b && x < y)
    decreases |a|
  {
    if |a| == 0 {
      assert (a + [x])[0] == x && (b + [y])[0] == y;
      assert (a + [x])[1..] == a && (b + [y])[1..] == b;
    } else {
      assert (a + [x])[0] == a[0] && (b + [y])[0] == b[0];
      assert (a + [x])[1..] == a[1..] + [x] && (b + [y])[1..] == b[1..] + [y];
      LessAppend(a[1..], b[1..], x, y);
      if a[0] == b[0] && a[1..] == b[1..] {
        assert a == [a[0]] + a[1..] && b == [b[0]] + b[1..];
      }
    }
  }

  /** Every element is strictly below every later element. */
  ghost predicate StrictlySorted(xs: seq<string>) {
    forall i, j :: 0 <= i < j < |xs| ==> Less(xs[i], xs[j])
  }

  lemma SortedDistinct(xs: seq<string>)
    requires StrictlySorted(xs)
    ensures Distinct(xs)
  {
    forall i, j | 0 <= i < j < |xs|
      ensures xs[i] != xs[j]
    {
      LessIrreflexive(xs[i]);
    }
  }

  /** Inserts `x` into a strictly ascending list, keeping it duplicate-free. */
  function InsertUnique(x: string, xs: seq<string>): (r: seq<string>)
    requires StrictlySorted(xs)
    ensures StrictlySorted(r)
    ensures Elems(r) == Elems(xs) + {x}
  {
    if |xs| == 0 then [x]
    else if x == xs[0] then xs
    else if Less(x, xs[0]) then
      assert StrictlySorted([x] + xs) by {
        forall j | 0 < j < |xs| ensures Less(x, xs[j]) {
          LessTransitive(x, xs[0], xs[j]);
        }
      }
      [x] + xs
    else
      assert Elems(xs) == {xs[0]} + Elems(xs[1..]) by {
        assert xs == [xs[0]] + xs[1..];
      }
      var rest := InsertUnique(x, xs[1..]);
      assert Less(xs[0], x) by { LessTotal(x, xs[0]); }
      assert StrictlySorted([xs[0]] + rest) by {
        forall j | 0 <= j < |rest| ensures Less(xs[0], rest[j]) {
          assert rest[j] in Elems(rest);
        }
      }
      assert Elems([xs[0]] + rest) == {xs[0]} + Elems(rest);
      [xs[0]] + rest
  }

  /**
   * Python's `sorted({... for t in ts})`: the members of `ts`, duplicates
   * removed, in ascending string order.
   */
  function SortUnique(ts: seq<string>): (r: seq<string>)
    ensures StrictlySorted(r)
    ensures Elems(r) == Elems(ts)
  {
    if |ts| == 0 then []
    else
      assert Elems(ts) == {ts[0]} + Elems(ts[1..]) by {
        assert ts == [ts[0]] + ts[1..];
      }
      InsertUnique(ts[0], SortUnique(ts[1..]))
  }

  /** A finite set of strings has exactly one strictly ascending enumeration. */
  lemma {:induction false} SortedUnique(a: seq<string>, b: seq<string>)
    requires StrictlySorted(a) && StrictlySorted(b)
    requires Elems(a) == Elems(b)
    ensures a == b
    decreases |a|
  {
    if |b| > 0 {
      assert b[0] in Elems(b);
    }
    if |a| > 0 {
      assert a[0] in Elems(b);
      assert |b| > 0;
      assert b[0] in Elems(a);
      var k :| 0 <= k < |a| && a[k] == b[0];
      var m :| 0 <= m < |b| && b[m] == a[0];
      if k > 0 {
        LessIrreflexive(a[0]);
        assert Less(a[0], b[0]);
        assert m > 0;
        assert Less(b[0], a[0]);
        LessAsymmetric(a[0], b[0]);
      }
      assert a[0] == b[0];
      SortedDropHead(a);
      SortedDropHead(b);
      SortedUnique(a[1..], b[1..]);
      assert a == [a[0]] + a[1..] && b == [b[0]] + b[1..];
    }
  }

  /** Dropping the head of a strictly ascending list removes exactly that element. */
  lemma SortedDropHead(a: seq<string>)
    requires StrictlySorted(a) && |a| > 0
    ensures StrictlySorted(a[1..])
    ensures Elems(a[1..]) == Elems(a) - {a[0]}
  {
    assert a == [a[0]] + a[1..];
    forall j | 0 <= j < |a[1..]| ensures a[1..][j] != a[0] {
      LessIrreflexive(a[0]);
    }
  }
}

=== FILE: pinning.dfy ===
/**
 * `Application._create_pinning_string`: turns a CPU-pinning specification
 * into the comma-separated CPU id list handed to a launcher, or into "no
 * pinning". Python's runtime type tests become a closed datatype, the
 * `sys.platform == "darwin"` test an injected flag, `warnings.warn` a returned
 * flag, and the raised exceptions a `Failure` value.
 */
module Pinning {
  import opened Wrappers
  import opened Seqs
  import opened LexOrder
  import opened Decimal
  import opened Delimited

  /** One value found in a pinning specification. */
  datatype Elem =
    | IntV(n: int)                                 // a Python int
    | Other(typeName: string)                      // a non-int, non-iterable value (a float, None, ...)
    | Group(typeName: string, members: seq<Elem>)  // an iterable (list, tuple, range, str, ...)

  /** The `pin_ids` argument. */
  datatype PinIds =
    | Absent                          // pin_ids is None
    | NotIterable(typeName: string)   // tuple(pin_ids) raises TypeError
    | Items(entries: seq<Elem>)       // tuple(pin_ids) succeeds with these entries

  datatype ErrorKind = ValueError | TypeError

  /** The exceptions the source raises. */
  datatype PinError =
    | NegativeId(id: int)               // ValueError from _stringify_id
    | NonIntId(typeName: string)        // TypeError from _stringify_id
    | EntryNotIterable(typeName: string) // TypeError from chain.from_iterable on a non-int scalar entry
    | SpecNotIterable(typeName: string)  // TypeError re-raised around tuple(pin_ids)
  {
    function Kind(): ErrorKind {
      if NegativeId? then ValueError else TypeError
    }
  }

  /** The returned CPU list (`None` means no pinning) and whether a warning was issued. */
  datatype PinResult = PinResult(cpuList: Option<string>, warned: bool)

  // ---------------------------------------------------------------------------
  // Reference definitions: what a specification means after one-level flattening
  // ---------------------------------------------------------------------------

  /** An entry the source accepts in shape: an int, or an iterable of ints. */
  predicate EntryShaped(e: Elem) {
    e.IntV? || (e.Group? && forall j :: 0 <= j < |e.members| ==> e.members[j].IntV?)
  }

  predicate WellShaped(es: seq<Elem>) {
    forall i :: 0 <= i < |es| ==> EntryShaped(es[i])
  }

  /** The ints among the members of a group. */
  function IntsOf(ms: seq<Elem>): seq<int> {
    if |ms| == 0 then []
    else (if ms[0].IntV? then [ms[0].n] else []) + IntsOf(ms[1..])
  }

  /** When every member is an int, `IntsOf` lists them all. */
  lemma {:induction false} IntsOfInts(ms: seq<Elem>)
    requires forall j :: 0 <= j < |ms| ==> ms[j].IntV?
    ensures |IntsOf(ms)| == |ms|
    ensures forall j :: 0 <= j < |ms| ==> IntsOf(ms)[j] == ms[j].n
    decreases |ms|
  {
    if |ms| > 0 {
      IntsOfInts(ms[1..]);
    }
  }

  function EntryIds(e: Elem): seq<int> {
    match e
    case IntV(n) => [n]
    case Other(_) => []
    case Group(_, ms) => IntsOf(ms)
  }

  /** All integer ids of the specification, flattened one level, in order. */
  function Ids(es: seq<Elem>): seq<int> {
    if |es| == 0 then [] else EntryIds(es[0]) + Ids(es[1..])
  }

  /** A specification the source accepts: well shaped and no negative id. */
  predicate Valid(es: seq<Elem>) {
    WellShaped(es) && forall n :: n in Ids(es) ==> n >= 0
  }

  /** One entry the source accepts: well shaped with no negative id. */
  predicate EntryValid(e: Elem) {
    EntryShaped(e) && forall n :: n in EntryIds(e) ==> n >= 0
  }

  lemma ValidCons(es: seq<Elem>)
    requires |es| > 0
    ensures Valid(es) <==> EntryValid(es[0]) && Valid(es[1..])
  {
    var h, t := EntryIds(es[0]), Ids(es[1..]);
    assert Ids(es) == h + t;
    assert forall n :: n in Ids(es) <==> n in h || n in t;
    if EntryValid(es[0]) && Valid(es[1..]) {
      forall i | 0 <= i < |es| ensures EntryShaped(es[i]) {
        if i > 0 {
          assert es[i] == es[1..][i - 1];
        }
      }
    }
    if Valid(es) {
      forall i | 0 <= i < |es[1..]| ensures EntryShaped(es[1..][i]) {
        assert es[1..][i] == es[i + 1];
      }
    }
  }

  /** The error names something actually present in the specification. */
  predicate Blames(es: seq<Elem>, err: PinError) {
    match err
    case NegativeId(n) => n < 0 && n in Ids(es)
    case NonIntId(t) =>
      exists e :: e in es && e.Group? && exists m :: m in e.members && !m.IntV? && TypeName(m) == t
    case EntryNotIterable(t) => Other(t) in es
    case SpecNotIterable(_) => false
  }

  /** Python's `type(x)` of a value. */
  function TypeName(e: Elem): string {
    match e
    case IntV(_) => "int"
    case Other(t) => t
    case Group(t, _) => t
  }

  /** The decimal renderings of the non-negative members of an id set. */
  ghost function Rendered(ids: set<int>): set<string> {
    set i | i in ids && i >= 0 :: Dec(i)
  }

  // ---------------------------------------------------------------------------
  // The source's computation
  // ---------------------------------------------------------------------------

  /** The nested `_stringify_id`. */
  function StringifyId(x: Elem): (r: Result<string, PinError>)
    ensures r.Success? <==> x.IntV? && x.n >= 0
    ensures r.Success? ==> Canonical(r.value) && Parse(r.value) == x.n
    ensures x.IntV? && x.n < 0 ==> r == Failure(NegativeId(x.n))
    ensures !x.IntV? ==> r == Failure(NonIntId(TypeName(x)))
  {
    match x
    case IntV(n) =>
      if n < 0 then Failure(NegativeId(n))
      else ParseDec(n); Success(Dec(n))
    case _ => Failure(NonIntId(TypeName(x)))
  }

  /** `err` is what `_stringify_id` raises on the first member it rejects. */
  predicate FirstFailure(ms: seq<Elem>, err: PinError) {
    exists k :: 0 <= k < |ms| && StringifyId(ms[k]) == Failure(err)
                && forall j :: 0 <= j < k ==> StringifyId(ms[j]).Success?
  }

  /** `_stringify_id` over the members of one group, first failure wins. */
  function StringifyAll(ms: seq<Elem>): (r: Result<seq<string>, PinError>)
    ensures r.Success? <==> forall j :: 0 <= j < |ms| ==> ms[j].IntV? && ms[j].n >= 0
    ensures r.Success? ==> |r.value| == |IntsOf(ms)| == |ms|
    ensures r.Success? ==> r.value == Render(IntsOf(ms))
    ensures r.Failure? ==> match r.error
      case NegativeId(n) => n < 0 && n in IntsOf(ms)
      case NonIntId(t) => exists m :: m in ms && !m.IntV? && TypeName(m) == t
      case _ => false
    ensures r.Failure? ==> FirstFailure(ms, r.error)
  {
    if |ms| == 0 then Success([])
    else
      var h := StringifyId(ms[0]);
      if h.Failure? then
        assert FirstFailure(ms, h.error) by {
          assert StringifyId(ms[0]) == Failure(h.error);
        }
        Failure(h.error)
      else
        var t := StringifyAll(ms[1..]);
        if t.Failure? then
          assert FirstFailure(ms, t.error) by {
            var k :| 0 <= k < |ms[1..]| && StringifyId(ms[1..][k]) == Failure(t.error)
                     && forall j :: 0 <= j < k ==> StringifyId(ms[1..][j]).Success?;
            assert StringifyId(ms[k + 1]) == Failure(t.error);
            forall j | 0 <= j < k + 1 ensures StringifyId(ms[j]).Success? {
              if j > 0 {
                assert ms[j] == ms[1..][j - 1];
              }
            }
          }
          Failure(t.error)
        else
          assert IntsOf(ms) == [ms[0].n] + IntsOf(ms[1..]);
          assert ([ms[0].n] + IntsOf(ms[1..]))[1..] == IntsOf(ms[1..]);
          Success([h.value] + t.value)
  }

  /** The tokens one entry contributes through `(x,)` or `x` and `chain.from_iterable`. */
  function EntryTokens(e: Elem): (r: Result<seq<string>, PinError>)
    ensures r.Success? <==> EntryValid(e)
    ensures r.Success? ==> r.value == Render(EntryIds(e))
    ensures r.Failure? ==> match r.error
      case NegativeId(n) => n < 0 && n in EntryIds(e)
      case NonIntId(t) => e.Group? && exists m :: m in e.members && !m.IntV? && TypeName(m) == t
      case EntryNotIterable(t) => e == Other(t)
      case SpecNotIterable(_) => false
    ensures r.Failure? && e.Group? ==> FirstFailure(e.members, r.error)
  {
    match e
    case IntV(_) =>
      assert EntryIds(e) == [e.n] && e.n in EntryIds(e);
      var s :- StringifyId(e);
      Success([s])
    case Other(t) => Failure(EntryNotIterable(t))
    case Group(_, ms) =>
      GroupValid(e);
      StringifyAll(ms)
  }

  /** A group is accepted exactly when every member is a non-negative int. */
  lemma GroupValid(e: Elem)
    requires e.Group?
    ensures EntryValid(e) <==> forall j :: 0 <= j < |e.members| ==> e.members[j].IntV? && e.members[j].n >= 0
  {
    var ms := e.members;
    assert EntryIds(e) == IntsOf(ms);
    if forall j :: 0 <= j < |ms| ==> ms[j].IntV? {
      IntsOfInts(ms);
      if EntryValid(e) {
        forall j | 0 <= j < |ms| ensures ms[j].n >= 0 {
          assert EntryIds(e) == IntsOf(ms);
          assert IntsOf(ms)[j] in EntryIds(e);
        }
      }
    }
  }

  /**
   * The set comprehension of line 281 over a non-empty spec, pulling ids one
   * at a time from the lazy iterators of lines 279-280: each flattened id
   * rendered in order, the first offending value raising.
   */
  function Tokens(es: seq<Elem>): (r: Result<seq<string>, PinError>)
    ensures r.Success? <==> Valid(es)
    ensures r.Success? ==> r.value == Render(Ids(es))
    ensures r.Failure? ==> Blames(es, r.error)
  {
    if |es| == 0 then Success([])
    else
      assert es == [es[0]] + es[1..];
      ValidCons(es);
      RenderAppend(EntryIds(es[0]), Ids(es[1..]));
      Then(EntryTokens(es[0]), Tokens(es[1..]))
  }

  /** Tokens of one part followed by those of the next; the earlier failure wins. */
  function Then(x: Result<seq<string>, PinError>, y: Result<seq<string>, PinError>): Result<seq<string>, PinError> {
    if x.Failure? then x
    else if y.Failure? then y
    else Success(x.value + y.value)
  }

  /** `",".join(_stringify_id(i) for i in range(cpus))`. */
  function DefaultList(cpus: int): (r: string)
    ensures r == "" <==> cpus <= 0
    ensures Sep in r <==> cpus > 1
  {
    if cpus <= 0 then ""
    else
      var xs := seq(cpus, i requires 0 <= i => Dec(i));
      assert xs[0] == "0";
      if cpus == 1 then
        assert Join(xs) == "0";
        Join(xs)
      else
        assert Join(xs) == "0" + [Sep] + Join(xs[1..]);
        assert Join(xs)[1] == Sep;
        Join(xs)
  }

  /** `Application._create_pinning_string(pin_ids, cpus)` with `darwin` standing for the platform test. */
  function CreatePinningString(pinIds: PinIds, cpus: int, darwin: bool): (r: Result<PinResult, PinError>)
    // a non-iterable spec is rejected before the platform is looked at
    ensures pinIds.NotIterable? ==> r == Failure(SpecNotIterable(pinIds.typeName))
    // on darwin nothing is pinned or validated; the warning flags a non-empty request
    ensures darwin && !pinIds.NotIterable? ==>
      r.Success? && r.value.cpuList.None? && (r.value.warned <==> pinIds.Items? && |pinIds.entries| > 0)
    ensures !darwin && r.Success? ==> !r.value.warned
    // absent and empty are distinct: default list versus disabled pinning
    ensures !darwin && pinIds.Absent? ==> r.Success? && r.value.cpuList.Some?
    ensures !darwin && pinIds == Items([]) ==> r == Success(PinResult(None, false))
    ensures !darwin && pinIds.Items? && |pinIds.entries| > 0 ==>
      (r.Success? <==> Valid(pinIds.entries)) && (r.Success? ==> r.value.cpuList.Some?)
    ensures r.Failure? ==> r.error.SpecNotIterable? || (pinIds.Items? && Blames(pinIds.entries, r.error))
  {
    if pinIds.NotIterable? then Failure(SpecNotIterable(pinIds.typeName))
    else if darwin then Success(PinResult(None, Requested(pinIds)))
    else if pinIds.Absent? then Success(PinResult(Some(DefaultList(cpus)), false))
    else if |pinIds.entries| == 0 then Success(PinResult(None, false))
    else
      var toks :- Tokens(pinIds.entries);
      Success(PinResult(Some(Join(SortUnique(toks))), false))
  }

  /** Python truthiness of the materialised `pin_ids`: a non-empty tuple. */
  predicate Requested(pinIds: PinIds) {
    match pinIds
    case Items(es) => |es| > 0
    case _ => false
  }

  // ---------------------------------------------------------------------------
  // Properties
  // ---------------------------------------------------------------------------

  lemma CanonicalHasNoSep(s: string)
    requires Canonical(s)
    ensures Sep !in s
  {
  }

  /**
   * With no specification off darwin, the list is every id `0 .. cpus-1` in
   * numeric order, and the empty string when `cpus <= 0`.
   */
  lemma DefaultRange(cpus: int)
    ensures var r := CreatePinningString(Absent, cpus, false);
      && r.Success? && r.value.cpuList.Some?
      && (cpus <= 0 ==> r.value.cpuList.value == "")
      && (cpus > 0 ==>
            var toks := Split(r.value.cpuList.value);
            && |toks| == cpus
            && forall i :: 0 <= i < cpus ==> Canonical(toks[i]) && Parse(toks[i]) == i)
  {
    if cpus > 0 {
      var xs := seq(cpus, i requires 0 <= i => Dec(i));
      forall i | 0 <= i < |xs| ensures Sep !in xs[i] && Parse(xs[i]) == i {
        CanonicalHasNoSep(xs[i]);
        ParseDec(i);
      }
      SplitJoin(xs);
    }
  }

  /** The tokens of a valid specification are the renderings of its ids. */
  lemma TokensRendered(es: seq<Elem>)
    requires Valid(es)
    ensures Elems(Tokens(es).value) == Rendered(Elems(Ids(es)))
    ensures forall t :: t in Tokens(es).value ==> Canonical(t)
  {
    var ids := Ids(es);
    RenderElems(ids);
    assert forall n :: n in ids ==> n >= 0;
    assert (set n | n in ids :: Str(n)) == Rendered(Elems(ids));
    forall t | t in Tokens(es).value ensures Canonical(t) {
      assert t in Elems(Render(ids));
      var n :| n in ids && t == Str(n);
    }
  }

  /**
   * Off darwin, a valid non-empty specification yields strictly ascending
   * (in string order), pairwise distinct tokens whose set is exactly the set
   * of renderings of its flattened ids; the empty string when it flattens to
   * nothing.
   */
  lemma ExplicitList(es: seq<Elem>, cpus: int)
    requires |es| > 0 && Valid(es)
    ensures var r := CreatePinningString(Items(es), cpus, false);
      && r.Success? && r.value.cpuList.Some?
      && (|Ids(es)| == 0 ==> r.value.cpuList.value == "")
      && (|Ids(es)| > 0 ==>
            var toks := Split(r.value.cpuList.value);
            && StrictlySorted(toks)
            && Distinct(toks)
            && (forall i :: 0 <= i < |toks| ==> Canonical(toks[i]))
            && Elems(toks) == Rendered(Elems(Ids(es))))
  {
    var toks := Tokens(es).value;
    var sorted := SortUnique(toks);
    TokensRendered(es);
    if |Ids(es)| > 0 {
      assert toks[0] in Elems(sorted);
      forall i | 0 <= i < |sorted| ensures Canonical(sorted[i]) && Sep !in sorted[i] {
        assert sorted[i] in Elems(toks);
        CanonicalHasNoSep(sorted[i]);
      }
      SplitJoin(sorted);
      SortedDistinct(sorted);
    }
  }

  /**
   * The list depends only on the set of ids: reordering or repeating ids, or
   * regrouping them, never changes it.
   */
  lemma OrderIndependent(es1: seq<Elem>, es2: seq<Elem>, cpus: int)
    requires |es1| > 0 && Valid(es1)
    requires |es2| > 0 && Valid(es2)
    requires Elems(Ids(es1)) == Elems(Ids(es2))
    ensures CreatePinningString(Items(es1), cpus, false) == CreatePinningString(Items(es2), cpus, false)
  {
    TokensRendered(es1);
    TokensRendered(es2);
    SortedUnique(SortUnique(Tokens(es1).value), SortUnique(Tokens(es2).value));
  }

  /** The specification that reads each token of a list back as an int. */
  function ReadBack(toks: seq<string>): (es: seq<Elem>)
    ensures |es| == |toks|
  {
    seq(|toks|, i requires 0 <= i < |toks| =>
      if AllDigits(toks[i]) then IntV(Parse(toks[i])) else Other("str"))
  }

  /** Reading back canonical tokens gives a valid specification whose ids render as those tokens. */
  lemma ReadBackIds(toks: seq<string>)
    requires forall i :: 0 <= i < |toks| ==> Canonical(toks[i])
    ensures Valid(ReadBack(toks))
    ensures Render(Ids(ReadBack(toks))) == toks
  {
    var es := ReadBack(toks);
    assert forall i :: 0 <= i < |es| ==> es[i] == IntV(Parse(toks[i]));
    IntsOfSingles(es);
    RenderIndex(Ids(es));
    forall i | 0 <= i < |toks| ensures Render(Ids(es))[i] == toks[i] {
      DecParse(toks[i]);
    }
  }

  /** Feeding the ids of a produced list back in reproduces the same list. */
  lemma Idempotent(es: seq<Elem>, cpus: int)
    requires |es| > 0 && Valid(es) && |Ids(es)| > 0
    ensures var r := CreatePinningString(Items(es), cpus, false);
      && r.Success? && r.value.cpuList.Some?
      && CreatePinningString(Items(ReadBack(Split(r.value.cpuList.value))), cpus, false) == r
  {
    ExplicitList(es, cpus);
    var toks := Split(CreatePinningString(Items(es), cpus, false).value.cpuList.value);
    var es2 := ReadBack(toks);
    ReadBackIds(toks);
    var ids, ids2 := Ids(es), Ids(es2);
    RenderIndex(ids2);
    SameIds(ids, ids2, toks);
    OrderIndependent(es, es2, cpus);
  }

  /** Two lists of non-negative ids whose renderings make up the same token set have the same ids. */
  lemma SameIds(ids: seq<int>, ids2: seq<int>, toks: seq<string>)
    requires forall n :: n in ids ==> n >= 0
    requires forall n :: n in ids2 ==> n >= 0
    requires Elems(toks) == Rendered(Elems(ids))
    requires |ids2| == |toks| && forall i :: 0 <= i < |toks| ==> toks[i] == Str(ids2[i])
    ensures Elems(ids) == Elems(ids2)
  {
    forall n | n in Elems(ids2) ensures n in Elems(ids) {
      var i :| 0 <= i < |ids2| && ids2[i] == n;
      assert toks[i] in Elems(toks);
      var m :| m in Elems(ids) && m >= 0 && Dec(m) == toks[i];
      DecInjective(m, n);
    }
    forall n | n in Elems(ids) ensures n in Elems(ids2) {
      assert Dec(n) in Elems(toks);
      var i :| 0 <= i < |toks| && toks[i] == Dec(n);
      assert ids2[i] in ids2;
      DecInjective(ids2[i], n);
    }
  }

  /** A specification of plain ints flattens to exactly those ints. */
  lemma {:induction false} IntsOfSingles(es: seq<Elem>)
    requires forall i :: 0 <= i < |es| ==> es[i].IntV?
    ensures |Ids(es)| == |es|
    ensures forall i :: 0 <= i < |es| ==> Ids(es)[i] == es[i].n
    decreases |es|
  {
    if |es| > 0 {
      IntsOfSingles(es[1..]);
      assert Ids(es) == [es[0].n] + Ids(es[1..]);
    }
  }

  /**
   * When all ids render to the same width (say all below 10), string order
   * coincides with numeric order and the list is numerically ascending.
   */
  lemma SameWidthIsNumeric(es: seq<Elem>, cpus: int)
    requires |es| > 0 && Valid(es) && |Ids(es)| > 0
    requires forall m, n :: m in Ids(es) && n in Ids(es) ==> |Str(m)| == |Str(n)|
    ensures var r := CreatePinningString(Items(es), cpus, false);
      && r.Success? && r.value.cpuList.Some?
      && var toks := Split(r.value.cpuList.value);
         forall i, j :: 0 <= i < j < |toks| ==> AllDigits(toks[i]) && AllDigits(toks[j]) && Parse(toks[i]) < Parse(toks[j])
  {
    ExplicitList(es, cpus);
    var toks := Split(CreatePinningString(Items(es), cpus, false).value.cpuList.value);
    forall i, j | 0 <= i < j < |toks|
      ensures AllDigits(toks[i]) && AllDigits(toks[j]) && Parse(toks[i]) < Parse(toks[j])
    {
      assert toks[i] in Elems(toks) && toks[j] in Elems(toks);
      var a :| a in Elems(Ids(es)) && a >= 0 && toks[i] == Dec(a);
      var b :| b in Elems(Ids(es)) && b >= 0 && toks[j] == Dec(b);
      assert |Str(a)| == |Str(b)|;
      LessSameWidth(a, b);
      ParseDec(a);
      ParseDec(b);
    }
  }

  /** `[10, 2, 9]` gives "10,2,9": the order is that of strings, not of numbers. */
  lemma StringOrderExample()
    ensures CreatePinningString(Items([IntV(10), IntV(2), IntV(9)]), 8, false)
         == Success(PinResult(Some("10,2,9"), false))
  {
    ExampleTokens();
    ExampleSorted();
    ExampleJoined();
  }

  /** The documented example: `[0, 2, 5]` gives "0,2,5". */
  lemma DocumentedExample()
    ensures CreatePinningString(Items([IntV(0), IntV(2), IntV(5)]), 8, false)
         == Success(PinResult(Some("0,2,5"), false))
  {
    DocumentedTokens();
    DocumentedSorted();
    DocumentedJoined();
  }

  lemma DocumentedJoined()
    ensures Join(["0", "2", "5"]) == "0,2,5"
  {
    assert ["0", "2", "5"][1..] == ["2", "5"] && ["2", "5"][1..] == ["5"];
  }

  lemma DocumentedTokens()
    ensures Tokens([IntV(0), IntV(2), IntV(5)]) == Success(["0", "2", "5"])
  {
    TokensSingle(IntV(0));
    TokensSingle(IntV(2));
    TokensSingle(IntV(5));
    TokensAppend([IntV(0)], [IntV(2)]);
    TokensAppend([IntV(0), IntV(2)], [IntV(5)]);
    assert [IntV(0)] + [IntV(2)] == [IntV(0), IntV(2)];
    assert [IntV(0), IntV(2)] + [IntV(5)] == [IntV(0), IntV(2), IntV(5)];
    assert Dec(0) == "0" && Dec(2) == "2" && Dec(5) == "5";
    assert ["0"] + ["2"] == ["0", "2"] && ["0", "2"] + ["5"] == ["0", "2", "5"];
  }

  lemma DocumentedSorted()
    ensures SortUnique(["0", "2", "5"]) == ["0", "2", "5"]
  {
    assert Less("0", "2") && Less("0", "5") && Less("2", "5");
    assert ["0", "2", "5"][1..] == ["2", "5"] && ["2", "5"][1..] == ["5"] && ["5"][1..] == [];
    assert SortUnique(["5"]) == ["5"];
    assert SortUnique(["2", "5"]) == ["2", "5"];
  }

  /** Inside a group the first bad member decides: `[[1.5, -1]]` is a `TypeError`, `[[-1, 1.5]]` a `ValueError`. */
  lemma GroupFirstBadDecides()
    ensures CreatePinningString(Items([Group("list", [Other("float"), IntV(-1)])]), 8, false)
         == Failure(NonIntId("float"))
    ensures CreatePinningString(Items([Group("list", [IntV(-1), Other("float")])]), 8, false)
         == Failure(NegativeId(-1))
  {
  }

  lemma ExampleJoined()
    ensures Join(["10", "2", "9"]) == "10,2,9"
  {
    assert ["10", "2", "9"][1..] == ["2", "9"] && ["2", "9"][1..] == ["9"];
  }

  lemma ExampleTokens()
    ensures Tokens([IntV(10), IntV(2), IntV(9)]) == Success(["10", "2", "9"])
  {
    TokensSingle(IntV(10));
    TokensSingle(IntV(2));
    TokensSingle(IntV(9));
    TokensAppend([IntV(10)], [IntV(2)]);
    TokensAppend([IntV(10), IntV(2)], [IntV(9)]);
    assert [IntV(10)] + [IntV(2)] == [IntV(10), IntV(2)];
    assert [IntV(10), IntV(2)] + [IntV(9)] == [IntV(10), IntV(2), IntV(9)];
    assert Dec(10) == "10" && Dec(2) == "2" && Dec(9) == "9";
    assert ["10"] + ["2"] == ["10", "2"] && ["10", "2"] + ["9"] == ["10", "2", "9"];
  }

  lemma ExampleSorted()
    ensures SortUnique(["10", "2", "9"]) == ["10", "2", "9"]
  {
    assert Less("10", "9") && Less("10", "2") && Less("2", "9");
    assert ["10", "2", "9"][1..] == ["2", "9"] && ["2", "9"][1..] == ["9"] && ["9"][1..] == [];
    assert SortUnique(["9"]) == ["9"];
    assert SortUnique(["2", "9"]) == ["2", "9"];
  }

  /**
   * A well-shaped specification with a negative id fails with a
   * `ValueError` naming a negative id it contains.
   */
  lemma NegativeIsValueError(es: seq<Elem>, cpus: int)
    requires |es| > 0 && WellShaped(es)
    requires exists n :: n in Ids(es) && n < 0
    ensures var r := CreatePinningString(Items(es), cpus, false);
      && r.Failure? && r.error.Kind() == ValueError
      && r.error.NegativeId? && r.error.id < 0 && r.error.id in Ids(es)
  {
    var r := CreatePinningString(Items(es), cpus, false);
    assert !Valid(es);
    WellShapedBlamesNegative(es, r.error);
  }

  /** In a well-shaped specification only a negative id can be blamed. */
  lemma WellShapedBlamesNegative(es: seq<Elem>, err: PinError)
    requires WellShaped(es) && Blames(es, err)
    ensures err.NegativeId?
  {
  }

  /**
   * A specification without negative ids that is not well shaped (a float
   * entry, a string member, a group nested twice) fails with a `TypeError`.
   */
  lemma MisshapenIsTypeError(es: seq<Elem>, cpus: int)
    requires |es| > 0 && !WellShaped(es)
    requires forall n :: n in Ids(es) ==> n >= 0
    ensures var r := CreatePinningString(Items(es), cpus, false);
      r.Failure? && r.error.Kind() == TypeError
  {
  }

  /** The first offending entry decides the error: a valid prefix never changes it. */
  lemma {:induction false} TokensAppend(a: seq<Elem>, b: seq<Elem>)
    ensures Tokens(a + b) == Then(Tokens(a), Tokens(b))
    decreases |a|
  {
    if |a| == 0 {
      assert a + b == b;
      if Tokens(b).Success? {
        ConcatNil(Tokens(b).value);
      }
    } else {
      ConcatTail(a, b);
      TokensAppend(a[1..], b);
      var h, t, u := EntryTokens(a[0]), Tokens(a[1..]), Tokens(b);
      if h.Success? && t.Success? && u.Success? {
        ConcatAssoc(h.value, t.value, u.value);
      }
    }
  }

  lemma TokensSingle(e: Elem)
    ensures Tokens([e]) == EntryTokens(e)
  {
    assert [e][1..] == [];
    if EntryTokens(e).Success? {
      assert EntryTokens(e).value + [] == EntryTokens(e).value;
    }
  }
}

=== FILE: seqs.dfy ===
/** Facts about finite sequences shared by the other modules. */
module Seqs {

  /** The set of elements of a sequence. */
  function Elems<T>(xs: seq<T>): set<T> {
    set x | x in xs
  }

  /** No value occurs twice. */
  ghost predicate Distinct<T>(xs: seq<T>) {
    forall i, j :: 0 <= i < j < |xs| ==> xs[i] != xs[j]
  }

  lemma ConcatTail<T>(a: seq<T>, b: seq<T>)
    requires |a| > 0
    ensures (a + b)[0] == a[0] && (a + b)[1..] == a[1..] + b
  {
  }

  lemma ConcatNil<T>(a: seq<T>)
    ensures [] + a == a
  {
  }

  lemma ConcatAssoc<T>(a: seq<T>, b: seq<T>, c: seq<T>)
    ensures a + (b + c) == (a + b) + c
  {
  }
}

=== FILE: wrappers.dfy ===
/** Failure-compatible wrappers used to model Python's `None` and raised exceptions. */
module Wrappers {

  /** An optional value: `None` models Python's `None`. */
  datatype Option<+T> = None | Some(value: T) {

    /** The value, or `default` when absent (Python's `x or default` for lists). */
    function GetOr(default: T): T {
      match this
      case Some(v) => v
      case None => default
    }
  }

  /** Either a value or the exception the source would raise instead. */
  datatype Result<+R, +E> = Success(value: R) | Failure(error: E) {

    predicate IsFailure() {
      Failure?
    }

    function PropagateFailure<U>(): Result<U, E>
      requires Failure?
    {
      Failure(error)
    }

    function Extract(): R
      requires Success?
    {
      value
    }
  }
}
